=== FILE: README.md ===
# StoreSearch search screens in Dafny

This project models the logic of two versions of the StoreSearch search screen.
Each is a small state machine behind a search bar and a table view.

- **`SearchController`** models the networked screen in `StoreSearch/Controller/StoreSearchVC.swift`.
  - The view controller's fields become one immutable `Session` record: `searchResults`, `hasSearched`, `isLoading` and `dataTask`.
  - Tapping Search (`peformSearch`) is a pure transition. So is the data task's completion handler, which takes a reply of data, response and error code.
  - The table callbacks are queries on the state: the row count, the cell for a row, and whether a row may be selected.
  - Sequences of searches and completions act on a `World`: the `Session` plus the number of started tasks whose handler has not run yet. Each task runs its handler once, a cancelled task included.
  - The helpers are the segment-to-`entity` token map, the iTunes search URL, `parse` and the artist label.
  - Three things are parameters, so every property holds whatever they do: the percent-encoder, the JSON decoder (returning `Option<seq<SearchResult>>`), and the `<` on results. The sorting properties assume `<` is a strict weak ordering, which `sort(by:)` requires of its caller.
- **`FakeSearchController`** models the earlier screen in `StoreSearch/StoreSearchVC.swift`.
  - Searching "Bob" finds nothing.
  - Any other text finds three fake entries, named "Fake Result 0 for" to "Fake Result 2 for" and credited to the query.
  - It has its own row count, cell and selection rules.
- **Supporting modules:**
  - `Orderings`: strict weak orderings, and an insertion sort proved to return a sorted permutation.
  - `Text`: first-index search, and the decimal rendering used by `%d`.
  - `Wrappers`: `Option`.

The model follows the code as written:

- The "All" segment still appends `entity=`, with an empty value.
- Superseded requests are kept out only by the `-999` cancellation error code. No request token exists. `LateReplyOverwritesNewerSearch` shows that a delivered reply replaces the results of a newer search.
- An empty query raises the loading flag and starts no task. Unless an earlier search's task still owes its completion, nothing lowers the flag again. This includes the usual case where the previous search's reply has already come in.
- An HTTP 200 reply with no body takes the failure path.
- A failure keeps the old results but clears `hasSearched`, so the table shows no rows.

## Model

| member | source | states |
|---|---|---|
| `SearchController.EntityFor` | StoreSearch/Controller/StoreSearchVC.swift:56-62 | The token is empty exactly for indices other than 1, 2, 3, and a non-empty token maps back to its index. |
| `SearchController.EntityForInjective` | StoreSearch/Controller/StoreSearchVC.swift:56-62 | Two indices share a token only if they are equal or both lack a filter. |
| `SearchController.ItunesURL` | StoreSearch/Controller/StoreSearchVC.swift:55-67 | The URL starts with the endpoint and `term=`, ends with `&limit=200&entity=` plus the token (even an empty one), and holds exactly the encoded term in between. |
| `SearchController.SplitSearchURLSound` | StoreSearch/Controller/StoreSearchVC.swift:63-64 | Any URL the reader accepts has the built shape, with a term free of `&`. |
| `SearchController.SearchURLRoundTrip` | StoreSearch/Controller/StoreSearchVC.swift:63-64 | When the encoded term has no `&`, the term and the selected token can be read back from the URL. |
| `SearchController.SplitQueryRoundTrip` | StoreSearch/Controller/StoreSearchVC.swift:63-64 | After `term=`, a term without `&` followed by `&limit=200&entity=` and a token reads back as that term and that token. |
| `SearchController.AmpersandCutsTerm` | StoreSearch/Controller/StoreSearchVC.swift:63-64 | When the encoded term keeps a `&`, the URL's term parameter is not the encoded term. |
| `SearchController.Parse` | StoreSearch/Controller/StoreSearchVC.swift:70-79 | A successful decode yields exactly the decoded results in order; a failed decode yields the empty sequence. |
| `SearchController.ParseEmptyIff` | StoreSearch/Controller/StoreSearchVC.swift:70-78 | `parse` returns nothing exactly when decoding fails or decodes an empty array. |
| `SearchController.PerformSearch` | StoreSearch/Controller/StoreSearchVC.swift:102-139 | Loading is always raised. Empty text leaves results, the searched flag and the task alone and cancels nothing. Other text cancels the old task, clears the results, sets the searched flag and starts a task for the search URL. |
| `SearchController.Classify` | StoreSearch/Controller/StoreSearchVC.swift:116-130 | A reply is cancelled exactly when its error code is -999. It is delivered exactly when it is not cancelled and is an HTTP 200 with data. Every other reply is a failure. |
| `SearchController.ForceUnwrapTraps` | StoreSearch/Controller/StoreSearchVC.swift:116-129 | A reply traps exactly when it is not cancelled and carries no response; such a reply always lies on the failure path. |
| `SearchController.ShowsNetworkError` | StoreSearch/Controller/StoreSearchVC.swift:116-135 | The network-error alert is shown exactly for a reply that is not cancelled, carries a response, and is not an HTTP 200 with data, so a 200 without a body shows it too. A reply without a response traps at `response!` before the alert. |
| `SearchController.Complete` | StoreSearch/Controller/StoreSearchVC.swift:115-137 | A cancelled reply changes nothing. A delivery makes the results a sorted permutation of the parsed body and lowers loading. A failure lowers loading and the searched flag and keeps the results. The task is never touched. |
| `SearchController.CompletionRows` | StoreSearch/Controller/StoreSearchVC.swift:118-136 | On a screen that has searched, a delivery gives one row per parsed result, or one row when there are none. On a screen whose searched flag a failure lowered, a delivery stores the results but gives no rows. A failure always gives no rows. |
| `SearchController.NumberOfRows` | StoreSearch/Controller/StoreSearchVC.swift:149-161 | There are no rows exactly when neither loading nor searched. Loading gives 1 row, no results give 1 row, and otherwise there is one row per result. |
| `SearchController.ArtistLabel` | StoreSearch/Controller/StoreSearchVC.swift:178-182 | The label is "Unknown" exactly when the artist is empty; otherwise it is the artist, " (", the type and ")". |
| `SearchController.CellForRow` | StoreSearch/Controller/StoreSearchVC.swift:163-185 | Every row within the row count has a cell. The spinner appears exactly while loading. "Nothing Found" appears exactly when not loading and there are no results. Otherwise the cell is the result at that index, showing its name and label. |
| `SearchController.WillSelectRow` | StoreSearch/Controller/StoreSearchVC.swift:191-197 | Selection is allowed exactly when not loading and the results are non-empty, and it returns the same row. |
| `SearchController.SelectableIffResultCell` | StoreSearch/Controller/StoreSearchVC.swift:163-197 | A shown row is selectable exactly when it shows a result. |
| `SearchController.SearchShowsSpinner` | StoreSearch/Controller/StoreSearchVC.swift:104-106 | After any search the table is a single unselectable spinner row. |
| `SearchController.InitialShowsNothing` | StoreSearch/Controller/StoreSearchVC.swift:17-20 | On first appearance there is no task, no owed completion, no results, no searched flag and no rows. |
| `SearchController.RunFromInitial` | StoreSearch/Controller/StoreSearchVC.swift:17-20 | From first appearance, over any sequence of searches and completions, results, a searched flag or an owed completion never appear without a started task. |
| `SearchController.RunAppend` | StoreSearch/Controller/StoreSearchVC.swift:102-139 | Running two sequences of searches and completions one after the other is the same as running them joined. The joined run is possible exactly when the second part can follow where the first ends. |
| `SearchController.RunKeepsOnlyTasksProduceResults` | StoreSearch/Controller/StoreSearchVC.swift:108-115 | From a state where results, the searched flag and owed completions need a started task, every run keeps it so. |
| `SearchController.EmptySearchesSpinForever` | StoreSearch/Controller/StoreSearchVC.swift:105-108 | When no task owes a completion, whether or not one was ever started, any run of empty-text searches leaves results, searched flag and task as they were. The table is one unselectable spinner row, and no completion can come to lower it. |
| `SearchController.EmptySearchAfterFinishedSearchSpins` | StoreSearch/Controller/StoreSearchVC.swift:105-137 | After a search whose reply has come in, an empty-text search leaves the spinner up for good: no completion is left to lower it. |
| `SearchController.LateReplyOverwritesNewerSearch` | StoreSearch/Controller/StoreSearchVC.swift:109-121 | After two searches, a delivered reply, possibly the first search's, still becomes the results while the second search's task is current and one completion is still owed. |
| `Orderings.InsertionSort` | StoreSearch/Controller/StoreSearchVC.swift:121 | The sort returns a permutation of its input that is sorted under a strict weak ordering. |
| `Orderings.SortingSortedIsIdentity` | StoreSearch/Controller/StoreSearchVC.swift:121 | The model's insertion sort leaves input that is already in order unchanged. This is a property of the model's sort; `sort(by:)` itself promises no such thing for equivalent elements. |
| `Text.FormatDecimal` | StoreSearch/StoreSearchVC.swift:50 | The rendering of `%d` is a non-empty string of digits, one digit long exactly for numbers below 10, and starting with '0' only for 0 itself. |
| `Text.DecimalRoundTrip` | StoreSearch/StoreSearchVC.swift:50 | Reading a rendered number back yields the number. |
| `FakeSearchController.FakeName` | StoreSearch/StoreSearchVC.swift:50 | The name is "Fake Result ", the index in decimal, then " for". |
| `FakeSearchController.FakeNameInjective` | StoreSearch/StoreSearchVC.swift:48-52 | Different indices give different fake names. |
| `FakeSearchController.FakeResults` | StoreSearch/StoreSearchVC.swift:47-54 | The result list is empty exactly for "Bob". Otherwise it has exactly three entries, entry k being fake result k credited to the query. |
| `FakeSearchController.BuildFakeResults` | StoreSearch/StoreSearchVC.swift:46-54 | The loop, started from an empty list, yields nothing for "Bob" and otherwise three entries in ascending index order, each named for its index and credited to the query. |
| `FakeSearchController.SearchButtonClicked` | StoreSearch/StoreSearchVC.swift:44-57 | After any search the screen has searched, and its results are the fake results of the query alone, whatever came before. |
| `FakeSearchController.NumberOfRows` | StoreSearch/StoreSearchVC.swift:66-76 | There are no rows exactly before any search, 1 row for no results, and otherwise one row per result. |
| `FakeSearchController.CellForRow` | StoreSearch/StoreSearchVC.swift:78-92 | The "Nothing Found" cell appears exactly when there are no results. A result cell sits at an existing index and shows that result's name and artist name. |
| `FakeSearchController.WillSelectRow` | StoreSearch/StoreSearchVC.swift:98-104 | Selection is refused exactly when there are no results, and otherwise returns the same row. |
| `FakeSearchController.InitialShowsNothing` | StoreSearch/StoreSearchVC.swift:15-16 | Before the first search the table has no rows. |
| `FakeSearchController.SelectableIffResultCell` | StoreSearch/StoreSearchVC.swift:78-104 | A shown row is selectable exactly when it shows a result. |
| `FakeSearchController.SearchOutcomeOnScreen` | StoreSearch/StoreSearchVC.swift:46-55 | After "Bob" the table shows one unselectable "Nothing Found" row. After any other text it shows three selectable rows: fake entries 0, 1, 2, credited to the query. |

## Left out

- View plumbing is not modelled: nib registration, content insets, first-responder handling, `reloadData`, cell dequeuing, the spinner animation, `position(for:)` and `didSelectRowAt`'s deselection. The model has no UI framework to attach them to.
- `SearchResultCell` in both versions is not modelled. It only holds outlets and cell lifecycle code.
- The network-error alert is not presented. `ShowsNetworkError` only states when the handler would present it.
- `segmentChanged` is not modelled separately. It only logs and calls the same search, which the `SearchTapped` event covers.
- Threads are not modelled. The handler writes `searchResults` on the session's queue and lowers the flags later on the main queue. The model applies a completion as one sequential step, so races between those writes are not covered.
- Logging via `print` is left out.
- The Foundation percent-encoder, `URL(string:)` and `JSONDecoder` are abstract. The encoder and decoder are parameters, and the URL is kept as its string. Their force-unwraps are not modelled.
- The definitions of the networked `SearchResult` are not part of this model: its `Codable` form, its `artist` and `type` properties and its `<`. The model stores `artist` and `type` as fields and takes `<` as a parameter.
- `SearchController.Complete`: requires that the reply is not one on which `response!` traps, namely a non-cancelled reply with no response. The trap ends the program rather than producing a state.
- `SearchController.Complete`: states that the results are some sorted permutation of the parsed body, not which order ties get. `sort(by:)` promises no more.
- `SearchController.Enabled`: lets a completion arrive whenever some started task still owes one. It does not tie the reply to that task, so a cancelled task may answer with something other than -999. The lemmas about runs therefore also cover replies no real task would send.

=== FILE: fake_search_controller.dfy ===
/** The earlier search screen (`StoreSearchVC` at the top of the project),
    which answers every search with made-up results instead of asking the
    store: "Bob" finds nothing, any other text finds three fake entries. */
module FakeSearchController {
  import opened Wrappers
  import Text

  /** The earlier `SearchResult`: a name and an artist name. */
  datatype SearchResult = SearchResult(name: string, artistName: string)

  /** The fields `searchResults` and `hasSearched`. */
  datatype Session = Session(searchResults: seq<SearchResult>, hasSearched: bool)

  /** The state when the screen first appears. */
  const Initial: Session := Session([], false)

  /** The one query the fake search finds nothing for. */
  const NothingQuery: string := "Bob"

  /** How many fake entries any other query finds: the loop runs `0 ... 2`. */
  const FakeCount: nat := 3

  const NamePrefix: string := "Fake Result "
  const NameSuffix: string := " for"

  /** `String(format: "Fake Result %d for", i)`. The number can be read back
      from the name, so different indices give different names. */
  function FakeName(i: nat): (name: string)
    ensures |name| == |NamePrefix| + |Text.FormatDecimal(i)| + |NameSuffix|
    ensures name[..|NamePrefix|] == NamePrefix
    ensures name[|name| - |NameSuffix|..] == NameSuffix
    ensures name[|NamePrefix|..|name| - |NameSuffix|] == Text.FormatDecimal(i)
  {
    var name := NamePrefix + Text.FormatDecimal(i) + NameSuffix;
    assert name == NamePrefix + (Text.FormatDecimal(i) + NameSuffix);
    name
  }

  /** Fake names of different indices differ. */
  lemma FakeNameInjective(i: nat, j: nat)
    requires FakeName(i) == FakeName(j)
    ensures i == j
  {
    Text.FormatDecimalInjective(i, j);
  }

  /** The `i`-th fake entry for a query: named after `i`, credited to the query. */
  function FakeResult(i: nat, searchText: string): SearchResult {
    SearchResult(FakeName(i), searchText)
  }

  /** The fake results as a reference: none for "Bob", else entries 0, 1, 2 in order. */
  function FakeResults(searchText: string): (results: seq<SearchResult>)
    ensures searchText == NothingQuery <==> results == []
    ensures searchText != NothingQuery ==> |results| == FakeCount
    ensures forall k :: 0 <= k < |results| ==> results[k] == FakeResult(k, searchText)
  {
    if searchText == NothingQuery then []
    else seq(FakeCount, k requires 0 <= k => FakeResult(k, searchText))
  }

  /** The loop of `searchBarSearchButtonClicked`: start from an empty list
      and append one fake entry per index, unless the query is "Bob". */
  method BuildFakeResults(searchText: string) returns (results: seq<SearchResult>)
    ensures searchText == NothingQuery ==> results == []
    ensures searchText != NothingQuery ==> |results| == FakeCount
    ensures forall k :: 0 <= k < |results| ==> results[k].name == FakeName(k)
    ensures forall k :: 0 <= k < |results| ==> results[k].artistName == searchText
  {
    results := [];
    if searchText != NothingQuery {
      var i := 0;
      while i <= 2
        invariant 0 <= i <= FakeCount
        invariant |results| == i
        invariant forall k :: 0 <= k < i ==> results[k] == FakeResult(k, searchText)
      {
        results := results + [FakeResult(i, searchText)];
        i := i + 1;
      }
    }
  }

  /** Tapping Search: the old results are dropped, not extended, and the
      screen now counts as having searched. */
  method SearchButtonClicked(s: Session, searchText: string) returns (r: Session)
    ensures r.hasSearched
    ensures r.searchResults == FakeResults(searchText)
  {
    var results := BuildFakeResults(searchText);
    r := Session(results, true);
  }

  /** The rows a table cell can be. */
  datatype Cell = NothingFoundCell | ResultCell(name: string, artistName: string)

  /** `tableView(_:numberOfRowsInSection:)`: nothing before a search, one
      "Nothing Found" row for no results, else one row per result. */
  function NumberOfRows(s: Session): (n: nat)
    ensures n == 0 <==> !s.hasSearched
    ensures s.hasSearched && |s.searchResults| == 0 ==> n == 1
    ensures s.hasSearched && |s.searchResults| > 0 ==> n == |s.searchResults|
  {
    if !s.hasSearched then 0
    else if |s.searchResults| == 0 then 1
    else |s.searchResults|
  }

  /** `tableView(_:cellForRowAt:)` for a row the table asked for: the
      "Nothing Found" row when there are no results, else the result's name
      and artist name. */
  function CellForRow(s: Session, row: nat): (c: Cell)
    requires row < NumberOfRows(s)
    ensures c == NothingFoundCell <==> s.searchResults == []
    ensures c.ResultCell? ==>
      && row < |s.searchResults|
      && c == ResultCell(s.searchResults[row].name, s.searchResults[row].artistName)
  {
    if |s.searchResults| == 0 then NothingFoundCell
    else ResultCell(s.searchResults[row].name, s.searchResults[row].artistName)
  }

  /** `tableView(_:willSelectRowAt:)`: refused exactly when there are no results. */
  function WillSelectRow(s: Session, row: nat): (r: Option<nat>)
    ensures r.None? <==> s.searchResults == []
    ensures r.Some? ==> r.value == row
  {
    if |s.searchResults| == 0 then None else Some(row)
  }

  /** Before the first search the table has no rows. */
  lemma InitialShowsNothing()
    ensures NumberOfRows(Initial) == 0
  {
  }

  /** Every row the table shows is selectable exactly when it shows a result. */
  lemma SelectableIffResultCell(s: Session, row: nat)
    requires row < NumberOfRows(s)
    ensures WillSelectRow(s, row).Some? <==> CellForRow(s, row).ResultCell?
  {
  }

  /** What a search leaves on screen: for "Bob", one unselectable "Nothing
      Found" row; for anything else, three selectable rows showing fake
      entries 0, 1, 2 credited to the query. */
  lemma SearchOutcomeOnScreen(searchText: string)
    ensures var t := Session(FakeResults(searchText), true);
      && (searchText == NothingQuery ==>
            && NumberOfRows(t) == 1
            && CellForRow(t, 0) == NothingFoundCell
            && WillSelectRow(t, 0).None?)
      && (searchText != NothingQuery ==>
            && NumberOfRows(t) == FakeCount
            && forall row: nat :: row < FakeCount ==>
                 && CellForRow(t, row) == ResultCell(FakeName(row), searchText)
                 && WillSelectRow(t, row) == Some(row))
  {
  }
}

=== FILE: orderings.dfy ===
/** Strict weak orderings and a sort that respects them.

    Swift's `sort(by:)` demands that its comparator be a strict weak ordering
    and promises only that the result is a sorted permutation of the input
    (it does not promise stability). The model sorts by insertion and states
    exactly that promise. */
module Orderings {

  /** `less` is asymmetric and its complement is transitive: together these
      make `less` a strict weak ordering, the requirement of `sort(by:)`. */
  ghost predicate StrictWeakOrder<T(!new)>(less: (T, T) -> bool) {
    && (forall a, b :: less(a, b) ==> !less(b, a))
    && (forall a, b, c :: !less(a, b) && !less(b, c) ==> !less(a, c))
  }

  /** No element is strictly less than an element before it. */
  ghost predicate Sorted<T>(less: (T, T) -> bool, s: seq<T>) {
    forall i, j :: 0 <= i < j < |s| ==> !less(s[j], s[i])
  }

  /** Places `x` in front of the first element of `s` that is not less than it. */
  function Insert<T(!new)>(less: (T, T) -> bool, x: T, s: seq<T>): (r: seq<T>)
    requires StrictWeakOrder(less)
    requires Sorted(less, s)
    ensures multiset(r) == multiset(s) + multiset{x}
    ensures Sorted(less, r)
    decreases |s|
  {
    if s == [] then [x]
    else if less(s[0], x) then
      var tail := Insert(less, x, s[1..]);
      HeadIsLeast(less, s);
      NoneBelowSurvives(less, s[0], s[1..], x, tail);
      PrependKeepsSorted(less, s[0], tail);
      assert s == [s[0]] + s[1..];
      assert multiset(s) == multiset{s[0]} + multiset(s[1..]);
      assert multiset([s[0]] + tail) == multiset{s[0]} + multiset(tail);
      [s[0]] + tail
    else
      NothingBelowHead(less, x, s);
      PrependKeepsSorted(less, x, s);
      assert multiset([x] + s) == multiset{x} + multiset(s);
      [x] + s
  }

  /** In a sorted sequence nothing after the head is less than the head, and
      the rest is sorted too. */
  lemma HeadIsLeast<T>(less: (T, T) -> bool, s: seq<T>)
    requires Sorted(less, s)
    requires s != []
    ensures forall k :: 0 <= k < |s[1..]| ==> !less(s[1..][k], s[0])
    ensures Sorted(less, s[1..])
  {
    forall k | 0 <= k < |s[1..]|
      ensures !less(s[1..][k], s[0])
    {
      assert s[1..][k] == s[k + 1];
    }
  }

  /** If the head of a sorted sequence is not less than `x`, nothing in it is. */
  lemma NothingBelowHead<T(!new)>(less: (T, T) -> bool, x: T, s: seq<T>)
    requires StrictWeakOrder(less)
    requires Sorted(less, s)
    requires s != [] && !less(s[0], x)
    ensures forall k :: 0 <= k < |s| ==> !less(s[k], x)
  {
    forall k | 0 <= k < |s|
      ensures !less(s[k], x)
    {
      if k > 0 {
        assert !less(s[k], s[0]);
      }
    }
  }

  /** If neither `x` nor any element of `s` is less than `h`, no element of a
      rearrangement of `s` with `x` added is. */
  lemma NoneBelowSurvives<T>(less: (T, T) -> bool, h: T, s: seq<T>, x: T, t: seq<T>)
    requires multiset(t) == multiset(s) + multiset{x}
    requires !less(x, h)
    requires forall k :: 0 <= k < |s| ==> !less(s[k], h)
    ensures forall k :: 0 <= k < |t| ==> !less(t[k], h)
  {
    forall k | 0 <= k < |t|
      ensures !less(t[k], h)
    {
      assert t[k] in multiset(t);
      if t[k] != x {
        assert t[k] in multiset(s);
        var m :| 0 <= m < |s| && s[m] == t[k];
      }
    }
  }

  /** Putting an element in front of a sorted sequence keeps it sorted when
      nothing in the sequence is less than that element. */
  lemma PrependKeepsSorted<T>(less: (T, T) -> bool, h: T, t: seq<T>)
    requires Sorted(less, t)
    requires forall k :: 0 <= k < |t| ==> !less(t[k], h)
    ensures Sorted(less, [h] + t)
  {
    var r := [h] + t;
    forall i, j | 0 <= i < j < |r|
      ensures !less(r[j], r[i])
    {
      assert r[j] == t[j - 1];
      if i > 0 {
        assert r[i] == t[i - 1];
      }
    }
  }

  /** Sorts `s` into an order consistent with `less`. */
  function InsertionSort<T(!new)>(less: (T, T) -> bool, s: seq<T>): (r: seq<T>)
    requires StrictWeakOrder(less)
    ensures multiset(r) == multiset(s)
    ensures Sorted(less, r)
    ensures |r| == |s|
    decreases |s|
  {
    if s == [] then []
    else
      assert s == [s[0]] + s[1..];
      Insert(less, s[0], InsertionSort(less, s[1..]))
  }

  /** Sorting input that is already in order leaves it unchanged. */
  lemma {:induction false} SortingSortedIsIdentity<T(!new)>(less: (T, T) -> bool, s: seq<T>)
    requires StrictWeakOrder(less)
    requires Sorted(less, s)
    ensures InsertionSort(less, s) == s
    decreases |s|
  {
    if s != [] {
      SortingSortedIsIdentity(less, s[1..]);
      if |s| > 1 {
        assert !less(s[1], s[0]);
      }
    }
  }
}

=== FILE: search_controller.dfy ===
/** The networked search screen (`StoreSearchVC` in the Controller group).

    The view controller's mutable fields become one immutable `Session`
    record; tapping Search and the data task's completion handler become pure
    transitions on it; the table-view callbacks become queries. Foundation's
    percent-encoder, `JSONDecoder` and the `<` on search results are
    parameters, so every property below holds whatever they do (the sort
    properties need `<` to be a strict weak ordering, as `sort(by:)` does). */
module SearchController {
  import opened Wrappers
  import opened Orderings
  import Text

  newtype byte = x: int | 0 <= x < 256

  /** A response body as delivered by the data task. */
  type Data = seq<byte>

  /** One store item, reduced to what the screen reads: its `name`, its
      `artist` (empty when the store sent none) and its display `type`. */
  datatype SearchResult = SearchResult(name: string, artist: string, typeName: string)

  // ---------------------------------------------------------------------------
  // Building the request URL
  // ---------------------------------------------------------------------------

  const SearchEndpoint: string := "https://itunes.apple.com/search?"
  const TermKey: string := "term="
  /** Everything the template puts between the encoded term and the entity token. */
  const LimitAndEntity: string := "&limit=200&entity="

  /** The store's `entity` token for a segmented-control index: Music, Software
      and E-books have one, every other index (All, and "no segment") has the
      empty token. */
  function EntityFor(category: int): (kind: string)
    ensures kind == "" <==> !(1 <= category <= 3)
    ensures kind != "" ==> CategoryOf(kind) == category
  {
    if category == 1 then "musicTrack"
    else if category == 2 then "software"
    else if category == 3 then "ebook"
    else ""
  }

  /** The segment index an entity token stands for; 0 (All) for any other token. */
  function CategoryOf(kind: string): int {
    if kind == "musicTrack" then 1
    else if kind == "software" then 2
    else if kind == "ebook" then 3
    else 0
  }

  /** Two indices give the same token only when both name the same filter,
      or both name none. */
  lemma EntityForInjective(c1: int, c2: int)
    requires EntityFor(c1) == EntityFor(c2)
    ensures c1 == c2 || (!(1 <= c1 <= 3) && !(1 <= c2 <= 3))
  {
    if EntityFor(c1) != "" {
      assert CategoryOf(EntityFor(c1)) == c1;
    }
  }

  /** The search URL for `searchText` under the selected segment. `encode`
      stands for `addingPercentEncoding(withAllowedCharacters: .urlQueryAllowed)`. */
  function ItunesURL(encode: string -> string, searchText: string, category: int): (url: string)
    ensures |url| == |SearchEndpoint + TermKey| + |encode(searchText)| + |LimitAndEntity| + |EntityFor(category)|
    ensures url[..|SearchEndpoint + TermKey|] == SearchEndpoint + TermKey
    ensures url[|url| - |LimitAndEntity + EntityFor(category)|..] == LimitAndEntity + EntityFor(category)
    ensures url[|SearchEndpoint + TermKey|..|url| - |LimitAndEntity + EntityFor(category)|] == encode(searchText)
  {
    var kind := EntityFor(category);
    var url := SearchEndpoint + TermKey + encode(searchText) + LimitAndEntity + kind;
    assert url == (SearchEndpoint + TermKey) + (encode(searchText) + (LimitAndEntity + kind));
    url
  }

  /** The two variable parts of a search URL. */
  datatype QueryParts = QueryParts(term: string, entity: string)

  /** Reads a search URL back: the term runs from `term=` up to the first `&`,
      which must open the fixed `&limit=200&entity=` part; the rest is the
      entity token. */
  function SplitSearchURL(url: string): Option<QueryParts> {
    var head := SearchEndpoint + TermKey;
    if |url| < |head| || url[..|head|] != head then None
    else SplitQuery(url[|head|..])
  }

  /** Reads the part of a search URL after `term=`. */
  function SplitQuery(rest: string): Option<QueryParts> {
    var i := Text.IndexOf(rest, '&');
    var tail := rest[i..];
    if |tail| < |LimitAndEntity| || tail[..|LimitAndEntity|] != LimitAndEntity then None
    else Some(QueryParts(rest[..i], tail[|LimitAndEntity|..]))
  }

  /** What `SplitSearchURL` accepts is exactly a URL of the built shape whose
      term holds no `&`. */
  lemma SplitSearchURLSound(url: string)
    requires SplitSearchURL(url).Some?
    ensures var p := SplitSearchURL(url).value;
      && '&' !in p.term
      && url == SearchEndpoint + TermKey + p.term + LimitAndEntity + p.entity
  {
    var head := SearchEndpoint + TermKey;
    var rest := url[|head|..];
    var i := Text.IndexOf(rest, '&');
    var tail := rest[i..];
    assert url[..|head|] == head;
    assert tail[..|LimitAndEntity|] == LimitAndEntity;
    assert SplitSearchURL(url).value == QueryParts(rest[..i], tail[|LimitAndEntity|..]);
    SplitThreeTimes(url, |head|, i, |LimitAndEntity|);
  }

  /** Cutting a sequence at three successive points and joining the pieces
      gives the sequence back. */
  lemma SplitThreeTimes<T>(s: seq<T>, n: nat, i: nat, m: nat)
    requires n + i + m <= |s|
    ensures s == s[..n] + s[n..][..i] + s[n..][i..][..m] + s[n..][i..][m..]
  {
    var a := s[n..];
    var b := a[i..];
    assert b == b[..m] + b[m..];
    assert a == a[..i] + b;
    assert s == s[..n] + a;
    Reassociate(s[..n], a[..i], b[..m], b[m..]);
  }

  /** Cutting a join at the end of its first part gives both parts back. */
  lemma CutAppend<T>(p: seq<T>, q: seq<T>)
    ensures (p + q)[..|p|] == p
    ensures (p + q)[|p|..] == q
  {
  }

  /** Joining four sequences does not depend on the grouping. */
  lemma Reassociate<T>(p: seq<T>, q: seq<T>, r: seq<T>, t: seq<T>)
    ensures p + (q + (r + t)) == p + q + r + t
  {
  }

  /** A term that encodes without `&` can be read back from the URL together
      with the entity token, so `limit=200` and `entity=` are always there and
      the token is the selected one. */
  lemma SearchURLRoundTrip(encode: string -> string, searchText: string, category: int)
    requires '&' !in encode(searchText)
    ensures SplitSearchURL(ItunesURL(encode, searchText, category))
         == Some(QueryParts(encode(searchText), EntityFor(category)))
  {
    var head := SearchEndpoint + TermKey;
    var term := encode(searchText);
    var kind := EntityFor(category);
    Reassociate(head, term, LimitAndEntity, kind);
    CutAppend(head, term + (LimitAndEntity + kind));
    SplitQueryRoundTrip(term, kind);
  }

  /** The part after `term=` gives back a term free of `&` and the token. */
  lemma SplitQueryRoundTrip(term: string, kind: string)
    requires '&' !in term
    ensures SplitQuery(term + (LimitAndEntity + kind)) == Some(QueryParts(term, kind))
  {
    var rest := term + (LimitAndEntity + kind);
    Text.IndexOfAfterPrefix(term, LimitAndEntity + kind, '&');
    assert Text.IndexOf(rest, '&') == |term|;
    assert rest[..|term|] == term;
    assert rest[|term|..] == LimitAndEntity + kind;
  }

  /** A term whose encoding keeps a `&` (the query-allowed character set
      admits it) cannot be read back: the URL's term parameter ends early. */
  lemma AmpersandCutsTerm(encode: string -> string, searchText: string, category: int)
    requires '&' in encode(searchText)
    ensures var parts := SplitSearchURL(ItunesURL(encode, searchText, category));
      parts.None? || parts.value.term != encode(searchText)
  {
    var parts := SplitSearchURL(ItunesURL(encode, searchText, category));
    if parts.Some? {
      SplitSearchURLSound(ItunesURL(encode, searchText, category));
    }
  }

  // ---------------------------------------------------------------------------
  // Decoding the response
  // ---------------------------------------------------------------------------

  /** The results of a response body: everything the decoder produced, in its
      order, or nothing at all when decoding fails. `decode` stands for
      `JSONDecoder().decode(ResultArray.self, from:)` followed by `.results`. */
  function Parse(decode: Data -> Option<seq<SearchResult>>, data: Data): (results: seq<SearchResult>)
    ensures decode(data).Some? ==> results == decode(data).value
    ensures decode(data).None? ==> results == []
  {
    decode(data).GetOr([])
  }

  /** An undecodable body looks exactly like a decodable one that holds no
      results, and like nothing else. */
  lemma ParseEmptyIff(decode: Data -> Option<seq<SearchResult>>, data: Data)
    ensures Parse(decode, data) == [] <==> decode(data) == None || decode(data) == Some([])
  {
  }

  // ---------------------------------------------------------------------------
  // The screen's state and its transitions
  // ---------------------------------------------------------------------------

  /** A data task, known by the URL it fetches. */
  datatype DataTask = DataTask(url: string)

  /** The view controller's fields `searchResults`, `hasSearched`, `isLoading`
      and `dataTask`. */
  datatype Session = Session(
    searchResults: seq<SearchResult>,
    hasSearched: bool,
    isLoading: bool,
    dataTask: Option<DataTask>)

  /** The state when the screen first appears. */
  const Initial: Session := Session([], false, false, None)

  /** The state after tapping Search, and the task sent `cancel()` on the way. */
  datatype Launch = Launch(session: Session, cancelled: Option<DataTask>)

  /** Tapping Search (or switching segment) with `searchText` in the bar. The
      spinner goes up in every case; only a non-empty text cancels the task in
      flight, starts a new one and clears the old results. Nothing here ever
      lowers the spinner again: that is left to a completion. */
  function PerformSearch(s: Session, encode: string -> string, searchText: string, category: int): (r: Launch)
    ensures r.session.isLoading
    ensures searchText == "" ==>
      && r.session.searchResults == s.searchResults
      && r.session.hasSearched == s.hasSearched
      && r.session.dataTask == s.dataTask
      && r.cancelled == None
    ensures searchText != "" ==>
      && r.session.searchResults == []
      && r.session.hasSearched
      && r.session.dataTask == Some(DataTask(ItunesURL(encode, searchText, category)))
      && r.cancelled == s.dataTask
  {
    var loading := s.(isLoading := true);
    if searchText == "" then Launch(loading, None)
    else
      var task := DataTask(ItunesURL(encode, searchText, category));
      Launch(loading.(hasSearched := true, searchResults := [], dataTask := Some(task)), s.dataTask)
  }

  /** `NSURLErrorCancelled`, the error code of a task stopped by `cancel()`. */
  const CancelledErrorCode: int := -999

  /** What a data task hands its completion handler. */
  datatype UrlResponse = HttpResponse(statusCode: int) | OtherResponse
  datatype TaskReply = TaskReply(data: Option<Data>, response: Option<UrlResponse>, errorCode: Option<int>)

  /** The three ways the completion handler can go. */
  datatype Outcome = Cancelled | Delivered(body: Data) | Failed

  /** The handler's branches in order: a cancellation is recognised by its
      error code alone; otherwise an HTTP 200 that carries a body is a
      delivery, whatever error came with it; everything else, a 200 without a
      body included, is a failure. */
  function Classify(reply: TaskReply): (o: Outcome)
    ensures o.Cancelled? <==> reply.errorCode == Some(CancelledErrorCode)
    ensures o.Delivered? <==>
      && reply.errorCode != Some(CancelledErrorCode)
      && reply.response == Some(HttpResponse(200))
      && reply.data.Some?
    ensures o.Delivered? ==> Some(o.body) == reply.data
  {
    if reply.errorCode == Some(CancelledErrorCode) then Cancelled
    else if reply.response == Some(HttpResponse(200)) && reply.data.Some? then Delivered(reply.data.value)
    else Failed
  }

  /** The failure branch that is not a 200 logs `response!`, which traps when
      there is no response at all (a transport error with no reply). */
  predicate ForceUnwrapTraps(reply: TaskReply)
    ensures ForceUnwrapTraps(reply) <==> Classify(reply).Failed? && reply.response.None?
  {
    reply.errorCode != Some(CancelledErrorCode) && reply.response.None?
  }

  /** Whether the completion presents the "Whooops" network-error alert:
      for every reply that is neither a cancellation nor a 200 with a body,
      a 200 without a body included, provided it carries a response; without
      one, `response!` traps before the alert is reached. */
  predicate ShowsNetworkError(reply: TaskReply)
    ensures ShowsNetworkError(reply) <==>
      && reply.errorCode != Some(CancelledErrorCode)
      && reply.response.Some?
      && (reply.response != Some(HttpResponse(200)) || reply.data.None?)
    ensures ShowsNetworkError(reply) ==> !ForceUnwrapTraps(reply)
  {
    Classify(reply).Failed? && !ForceUnwrapTraps(reply)
  }

  /** The completion handler applied to the state. It does not check which
      task it belongs to: only the -999 error code keeps a superseded task
      from writing. A delivery replaces the results by the sorted decode of
      the body; a failure lowers the spinner and the searched flag but keeps
      whatever results were there. */
  function Complete(
    less: (SearchResult, SearchResult) -> bool,
    decode: Data -> Option<seq<SearchResult>>,
    s: Session,
    reply: TaskReply): (r: Session)
    requires StrictWeakOrder(less)
    requires !ForceUnwrapTraps(reply)
    ensures reply.errorCode == Some(CancelledErrorCode) ==> r == s
    ensures r.dataTask == s.dataTask
    ensures Classify(reply).Delivered? ==>
      && multiset(r.searchResults) == multiset(Parse(decode, reply.data.value))
      && Sorted(less, r.searchResults)
      && !r.isLoading
      && r.hasSearched == s.hasSearched
    ensures Classify(reply).Failed? ==>
      && r.searchResults == s.searchResults
      && !r.isLoading
      && !r.hasSearched
  {
    match Classify(reply)
    case Cancelled => s
    case Delivered(body) =>
      s.(searchResults := InsertionSort(less, Parse(decode, body)), isLoading := false)
    case Failed =>
      s.(isLoading := false, hasSearched := false)
  }

  // ---------------------------------------------------------------------------
  // What the table shows
  // ---------------------------------------------------------------------------

  /** The rows a table cell can be. */
  datatype Cell = LoadingCell | NothingFoundCell | ResultCell(name: string, artistLabel: string)

  /** `tableView(_:numberOfRowsInSection:)`: one spinner row while loading,
      nothing before a search, one "Nothing Found" row for no results, else
      one row per result. */
  function NumberOfRows(s: Session): (n: nat)
    ensures n == 0 <==> !s.isLoading && !s.hasSearched
    ensures s.isLoading ==> n == 1
    ensures !s.isLoading && s.hasSearched && |s.searchResults| > 0 ==> n == |s.searchResults|
    ensures !s.isLoading && s.hasSearched && |s.searchResults| == 0 ==> n == 1
  {
    if s.isLoading then 1
    else if !s.hasSearched then 0
    else if |s.searchResults| == 0 then 1
    else |s.searchResults|
  }

  /** The artist line of a result row: "Unknown" without an artist, else
      "artist (type)". */
  function ArtistLabel(result: SearchResult): (line: string)
    ensures line == "Unknown" <==> result.artist == ""
    ensures result.artist != "" ==>
      && |line| == |result.artist| + |result.typeName| + 3
      && line[..|result.artist|] == result.artist
      && line[|result.artist|..|result.artist| + 2] == " ("
      && line[|result.artist| + 2..|line| - 1] == result.typeName
      && line[|line| - 1] == ')'
  {
    if result.artist == "" then "Unknown"
    else
      var line := result.artist + " (" + result.typeName + ")";
      assert line[|result.artist| + 1] == '(';
      assert '(' !in "Unknown";
      line
  }

  /** `tableView(_:cellForRowAt:)` for a row the table asked for. The row
      count guarantees that a result row indexes an existing result. */
  function CellForRow(s: Session, row: nat): (c: Cell)
    requires row < NumberOfRows(s)
    ensures c == LoadingCell <==> s.isLoading
    ensures c == NothingFoundCell <==> !s.isLoading && s.searchResults == []
    ensures c.ResultCell? <==> !s.isLoading && s.searchResults != []
    ensures c.ResultCell? ==>
      && row < |s.searchResults|
      && c == ResultCell(s.searchResults[row].name, ArtistLabel(s.searchResults[row]))
  {
    if s.isLoading then LoadingCell
    else if |s.searchResults| == 0 then NothingFoundCell
    else
      var result := s.searchResults[row];
      ResultCell(result.name, ArtistLabel(result))
  }

  /** `tableView(_:willSelectRowAt:)`: the row itself when it may be selected,
      nothing while loading or without results. */
  function WillSelectRow(s: Session, row: nat): (r: Option<nat>)
    ensures r.Some? <==> !s.isLoading && |s.searchResults| > 0
    ensures r.Some? ==> r.value == row
  {
    if |s.searchResults| == 0 || s.isLoading then None else Some(row)
  }

  /** Every row the table shows is selectable exactly when it shows a result. */
  lemma SelectableIffResultCell(s: Session, row: nat)
    requires row < NumberOfRows(s)
    ensures WillSelectRow(s, row).Some? <==> CellForRow(s, row).ResultCell?
  {
  }

  /** While a search is loading the table is exactly one unselectable spinner,
      and a search or a segment switch always leaves it loading. */
  lemma SearchShowsSpinner(s: Session, encode: string -> string, searchText: string, category: int)
    ensures var t := PerformSearch(s, encode, searchText, category).session;
      && NumberOfRows(t) == 1
      && CellForRow(t, 0) == LoadingCell
      && WillSelectRow(t, 0) == None
  {
  }

  /** After a completion the table reflects it. On a screen that has searched,
      a delivery shows one row per delivered result (or one "Nothing Found"
      row). On a screen whose searched flag an earlier failure lowered, a
      delivery stores its results but the table shows none of them. A failure
      always leaves no rows, even though it keeps the old results. */
  lemma CompletionRows(
    less: (SearchResult, SearchResult) -> bool,
    decode: Data -> Option<seq<SearchResult>>,
    s: Session,
    reply: TaskReply)
    requires StrictWeakOrder(less)
    requires !ForceUnwrapTraps(reply)
    ensures var t := Complete(less, decode, s, reply);
      && (Classify(reply).Delivered? && s.hasSearched ==>
            var parsed := Parse(decode, reply.data.value);
            NumberOfRows(t) == if parsed == [] then 1 else |parsed|)
      && (Classify(reply).Delivered? && !s.hasSearched ==>
            && NumberOfRows(t) == 0
            && |t.searchResults| == |Parse(decode, reply.data.value)|)
      && (Classify(reply).Failed? ==> NumberOfRows(t) == 0)
  {
    var t := Complete(less, decode, s, reply);
    if Classify(reply).Delivered? {
      var parsed := Parse(decode, reply.data.value);
      assert |t.searchResults| == |multiset(t.searchResults)| == |multiset(parsed)| == |parsed|;
    }
  }

  // ---------------------------------------------------------------------------
  // Event sequences
  // ---------------------------------------------------------------------------

  /** The collaborators a run depends on: the percent-encoder, the decoder and
      the `<` that sorts results. */
  datatype Env = Env(
    encode: string -> string,
    decode: Data -> Option<seq<SearchResult>>,
    less: (SearchResult, SearchResult) -> bool)

  /** What can happen to the screen: a search (button or segment switch) or a
      data task's completion. */
  datatype Event = SearchTapped(searchText: string, category: int) | TaskFinished(reply: TaskReply)

  /** The screen together with the number of started tasks whose completion
      handler has not run yet. Every task runs its handler exactly once, with
      -999 when it was cancelled, so a cancelled task is still owed a
      completion. The count is not a field of the controller: it is what the
      URL session still owes it. */
  datatype World = World(session: Session, pending: nat)

  /** The screen's first appearance: no task started, none owed. */
  const Start: World := World(Initial, 0)

  /** A completion can only come from a task still owed one, and is taken to
      be one that does not trap. Which of the owed tasks it belongs to is not
      recorded, because the handler does not look. */
  predicate Enabled(w: World, e: Event) {
    e.TaskFinished? ==> w.pending > 0 && !ForceUnwrapTraps(e.reply)
  }

  /** A search owes one completion exactly when it starts a task; a
      completion pays one back. */
  function Step(env: Env, w: World, e: Event): (r: World)
    requires StrictWeakOrder(env.less)
    requires Enabled(w, e)
    ensures e.SearchTapped? ==> r.pending == if e.searchText == "" then w.pending else w.pending + 1
    ensures e.TaskFinished? ==> r.pending + 1 == w.pending && r.session.dataTask == w.session.dataTask
  {
    match e
    case SearchTapped(text, category) =>
      World(PerformSearch(w.session, env.encode, text, category).session,
            if text == "" then w.pending else w.pending + 1)
    case TaskFinished(reply) =>
      World(Complete(env.less, env.decode, w.session, reply), w.pending - 1)
  }

  /** Every event of `es` is enabled when it comes. */
  predicate Replayable(env: Env, w: World, es: seq<Event>)
    requires StrictWeakOrder(env.less)
    decreases |es|
  {
    es == [] || (Enabled(w, es[0]) && Replayable(env, Step(env, w, es[0]), es[1..]))
  }

  function Run(env: Env, w: World, es: seq<Event>): World
    requires StrictWeakOrder(env.less)
    requires Replayable(env, w, es)
    decreases |es|
  {
    if es == [] then w else Run(env, Step(env, w, es[0]), es[1..])
  }

  /** Running two event sequences one after the other is running their
      concatenation, and the second may follow exactly when it is replayable
      from where the first ends. */
  lemma {:induction false} RunAppend(env: Env, w: World, a: seq<Event>, b: seq<Event>)
    requires StrictWeakOrder(env.less)
    requires Replayable(env, w, a)
    ensures Replayable(env, w, a + b) <==> Replayable(env, Run(env, w, a), b)
    ensures Replayable(env, w, a + b) ==> Run(env, w, a + b) == Run(env, Run(env, w, a), b)
    decreases |a|
  {
    if a == [] {
      assert a + b == b;
    } else {
      assert (a + b)[0] == a[0];
      assert (a + b)[1..] == a[1..] + b;
      RunAppend(env, Step(env, w, a[0]), a[1..], b);
    }
  }

  /** Results, the searched flag and owed completions only ever come from a
      started task. */
  ghost predicate OnlyTasksProduceResults(w: World) {
    w.session.dataTask.None? ==> w.session.searchResults == [] && !w.session.hasSearched && w.pending == 0
  }

  /** Before any search the table is empty, no task exists and none is owed. */
  lemma InitialShowsNothing()
    ensures OnlyTasksProduceResults(Start)
    ensures NumberOfRows(Start.session) == 0
    ensures Start.session == Initial && Initial.dataTask.None?
  {
  }

  /** Every enabled event keeps `OnlyTasksProduceResults`. */
  lemma {:induction false} RunKeepsOnlyTasksProduceResults(env: Env, w: World, es: seq<Event>)
    requires StrictWeakOrder(env.less)
    requires Replayable(env, w, es)
    requires OnlyTasksProduceResults(w)
    ensures OnlyTasksProduceResults(Run(env, w, es))
    decreases |es|
  {
    if es != [] {
      RunKeepsOnlyTasksProduceResults(env, Step(env, w, es[0]), es[1..]);
    }
  }

  /** From the screen's first appearance, results, the searched flag and owed
      completions never show up before some task has been started. */
  lemma RunFromInitial(env: Env, es: seq<Event>)
    requires StrictWeakOrder(env.less)
    requires Replayable(env, Start, es)
    ensures OnlyTasksProduceResults(Run(env, Start, es))
  {
    RunKeepsOnlyTasksProduceResults(env, Start, es);
  }

  /** Searching with an empty bar when no completion is owed puts up a spinner
      that nothing can take down: however many such searches follow, the
      results, the searched flag and the task stay as they were, the table
      stays one unselectable loading row, and no completion can come to lower
      it. */
  lemma {:induction false} EmptySearchesSpinForever(env: Env, w: World, es: seq<Event>)
    requires StrictWeakOrder(env.less)
    requires w.pending == 0
    requires |es| > 0
    requires forall k :: 0 <= k < |es| ==> es[k].SearchTapped? && es[k].searchText == ""
    ensures Replayable(env, w, es)
    ensures var t := Run(env, w, es);
      && t.pending == 0
      && t.session == w.session.(isLoading := true)
      && NumberOfRows(t.session) == 1
      && CellForRow(t.session, 0) == LoadingCell
      && (forall row: nat :: WillSelectRow(t.session, row).None?)
      && (forall reply: TaskReply :: !Enabled(t, TaskFinished(reply)))
    decreases |es|
  {
    var next := Step(env, w, es[0]);
    if |es| > 1 {
      EmptySearchesSpinForever(env, next, es[1..]);
    }
  }

  /** The usual way into the stuck spinner: search, let the reply come in,
      then tap Search with an empty bar. The one task there was has already
      run its handler, so nothing can lower the spinner again. */
  lemma EmptySearchAfterFinishedSearchSpins(
    env: Env, text: string, category: int, reply: TaskReply, es: seq<Event>)
    requires StrictWeakOrder(env.less)
    requires text != ""
    requires !ForceUnwrapTraps(reply)
    requires |es| > 0
    requires forall k :: 0 <= k < |es| ==> es[k].SearchTapped? && es[k].searchText == ""
    ensures var all := [SearchTapped(text, category), TaskFinished(reply)] + es;
      && Replayable(env, Start, all)
      && var t := Run(env, Start, all);
         && t.session.isLoading
         && NumberOfRows(t.session) == 1
         && CellForRow(t.session, 0) == LoadingCell
         && (forall r: TaskReply :: !Enabled(t, TaskFinished(r)))
  {
    var pre := [SearchTapped(text, category), TaskFinished(reply)];
    var w1 := Step(env, Start, pre[0]);
    var w2 := Step(env, w1, pre[1]);
    assert pre[1..] == [pre[1]];
    assert pre[1..][1..] == [];
    assert Replayable(env, w2, []);
    assert Run(env, Start, pre) == Run(env, w1, pre[1..]) == w2;
    EmptySearchesSpinForever(env, w2, es);
    RunAppend(env, Start, pre, es);
  }

  /** A reply that arrives after a newer search has started still replaces
      that search's results: after searching for `first` and then `second`, a
      delivered body, which may be `first`'s, becomes the results while
      `second`'s task is the one in flight and one completion is still owed. */
  lemma LateReplyOverwritesNewerSearch(
    env: Env, w: World,
    first: string, firstCategory: int,
    second: string, secondCategory: int,
    reply: TaskReply)
    requires StrictWeakOrder(env.less)
    requires first != "" && second != ""
    requires Classify(reply).Delivered?
    ensures var es := [SearchTapped(first, firstCategory), SearchTapped(second, secondCategory), TaskFinished(reply)];
      && Replayable(env, w, es)
      && var t := Run(env, w, es);
         && t.session.dataTask == Some(DataTask(ItunesURL(env.encode, second, secondCategory)))
         && multiset(t.session.searchResults) == multiset(Parse(env.decode, reply.data.value))
         && !t.session.isLoading
         && t.pending == w.pending + 1
  {
    var es := [SearchTapped(first, firstCategory), SearchTapped(second, secondCategory), TaskFinished(reply)];
    var w1 := Step(env, w, es[0]);
    var w2 := Step(env, w1, es[1]);
    assert es[1..] == [es[1], es[2]];
    assert es[1..][1..] == [es[2]];
    assert es[1..][1..][1..] == [];
    var w3 := Step(env, w2, es[2]);
    assert Replayable(env, w3, []);
    assert Run(env, w, es) == Run(env, w1, es[1..]) == Run(env, w2, es[1..][1..]) == w3;
  }
}

=== FILE: text.dfy ===
/** Character-level helpers: locating a delimiter in a string, and the
    decimal rendering that `String(format: "%d", n)` produces for a
    non-negative integer. */
module Text {

  /** The index of the first `c` in `s`, or `|s|` when `s` has none. */
  function IndexOf(s: string, c: char): (i: nat)
    ensures i <= |s|
    ensures i < |s| ==> s[i] == c
    ensures forall k :: 0 <= k < i ==> s[k] != c
    decreases |s|
  {
    if s == [] then 0
    else if s[0] == c then 0
    else 1 + IndexOf(s[1..], c)
  }

  /** A prefix free of `c` shifts the first `c` by its own length. */
  lemma {:induction false} IndexOfAfterPrefix(a: string, b: string, c: char)
    requires c !in a
    ensures IndexOf(a + b, c) == |a| + IndexOf(b, c)
    decreases |a|
  {
    if a == [] {
      assert a + b == b;
    } else {
      assert (a + b)[1..] == a[1..] + b;
      IndexOfAfterPrefix(a[1..], b, c);
    }
  }

  predicate IsDigit(ch: char) {
    '0' <= ch <= '9'
  }

  function DigitChar(d: nat): (ch: char)
    requires d < 10
    ensures IsDigit(ch)
  {
    ['0', '1', '2', '3', '4', '5', '6', '7', '8', '9'][d]
  }

  function DigitValue(ch: char): (d: nat)
    requires IsDigit(ch)
    ensures d < 10
  {
    (ch as int - '0' as int) as nat
  }

  /** Decimal rendering of `n`, most significant digit first, as `%d` prints it:
      no leading zero, so only 0 itself starts with '0'. */
  function FormatDecimal(n: nat): (r: string)
    ensures |r| >= 1
    ensures forall k :: 0 <= k < |r| ==> IsDigit(r[k])
    ensures n < 10 <==> |r| == 1
    ensures r[0] == '0' <==> n == 0
    decreases n
  {
    if n < 10 then [DigitChar(n)]
    else FormatDecimal(n / 10) + [DigitChar(n % 10)]
  }

  /** The number a string of decimal digits denotes. */
  function DecimalValue(s: string): nat
    requires forall k :: 0 <= k < |s| ==> IsDigit(s[k])
    decreases |s|
  {
    if s == [] then 0
    else DecimalValue(s[..|s| - 1]) * 10 + DigitValue(s[|s| - 1])
  }

  /** Reading back a rendered number yields the number: the rendering loses nothing. */
  lemma {:induction false} DecimalRoundTrip(n: nat)
    ensures DecimalValue(FormatDecimal(n)) == n
    decreases n
  {
    var r := FormatDecimal(n);
    if n < 10 {
      assert DigitValue(DigitChar(n)) == n;
    } else {
      DecimalRoundTrip(n / 10);
      assert r[..|r| - 1] == FormatDecimal(n / 10);
      assert DigitValue(DigitChar(n % 10)) == n % 10;
    }
  }

  /** Distinct numbers render to distinct strings. */
  lemma FormatDecimalInjective(m: nat, n: nat)
    requires FormatDecimal(m) == FormatDecimal(n)
    ensures m == n
  {
    DecimalRoundTrip(m);
    DecimalRoundTrip(n);
  }
}

=== FILE: wrappers.dfy ===
/** The optional-value datatype used throughout the model, standing in for
    Swift's `T?`. */
module Wrappers {

  datatype Option<+T> = None | Some(value: T) {

    /** Returns the wrapped value, or `default` when there is none. */
    function GetOr(default: T): T {
      match this
      case Some(v) => v
      case None => default
    }
  }
}
